=== FILE: README.md ===
# Theo BoltClient: request sequencing and transactions

This project is a Dafny model of the session layer of Theo, a Swift client for Neo4j
that speaks the Bolt protocol. The modelled layer is `BoltClient` in
`Sources/Theo/Bolt/BoltClient.swift`. It covers:

- the `Transaction` record: `succeed`, `bookmark`, `autocommit` and the one-shot commit
  block;
- the synchronous `executeCypher`, which sends RUN and then PULL_ALL and maps the outcome
  to a `Result`;
- the callback form of `executeCypher`, which sends RUN only;
- `pullSynchronouslyAndIgnore`, which drains a request and copies the connection's
  bookmark into the current transaction;
- `executeAsTransaction`. It sends BEGIN, drains it, runs the body, and then sends COMMIT
  or ROLLBACK followed by a draining PULL_ALL.

The Bolt connection completes one request at a time. The model therefore treats it as a
scripted sequential oracle (`Protocol.Conn`). The script is a sequence of outcomes, and
each request handed to the connection receives the next one. An outcome is either a
completion (a success flag, opaque responses, and optionally a new bookmark) or a thrown
error: a server syntax error with its message, or any other error. The connection also
records every request in a log, and that log is the request trace the properties talk
about. When the script runs out, the completion never fires. A synchronous call then
stays blocked in `DispatchGroup.wait()`, and the model reports this as the `Blocked` flow
or the `Blocks` result. No call has a precondition on the length of the script.

`Transaction` is a Swift class. `currentTransaction` and the `tx` that a body receives
refer to the same object. The model keeps every transaction object in a store inside
`Client.Session`, and `current` holds the handle that `currentTransaction` points to. A
transaction body is the caller's closure, so the model represents it as a script of
`BodyStep`s: a synchronous query, a callback-form query, `markAsFailed()`, an assignment
to one of the transaction's public fields `autocommit`, `succeed` or `bookmark`, or
throwing.

Behaviour of the code that a reader may not expect, which the model keeps:

- After an unsuccessful BEGIN, `currentTransaction` is **not** cleared. The new
  transaction stays current, with its commit block reset to the no-op
  (`BoltClient.swift:162-166`).
- The synchronous `executeCypher` never updates any bookmark. Only
  `pullSynchronouslyAndIgnore` copies the connection's bookmark into the current
  transaction (`BoltClient.swift:98-100`). It does so whether or not the PULL_ALL
  succeeded, but only when the connection's bookmark is non-nil.
- A thrown error from the connection never marks the transaction failed. Only a request
  that completes with `success == false` does that, apart from the body's own
  `markAsFailed()` or `tx.succeed = false`. A body can also set `tx.succeed = true`
  after a failure, and the transaction then commits unless something fails it again.
- The `bookmark:` argument of `executeAsTransaction` is never read, and a new
  transaction's bookmark starts as nil.
- With `autocommit` turned off, nothing sends COMMIT or ROLLBACK. The commit block is
  `internal`, so a body cannot invoke it. The call therefore never returns.
- A fresh `Transaction()` starts with the no-op commit block. Only `executeAsTransaction`
  arms it.

The model assumes that an error thrown inside a completion block propagates out of the
`connection.request` call that registered it. Under sequential execution that is what
Swift's `throws` closures do. The model relies on this in three places:
- the PULL_ALL that `executeCypher` issues inside the RUN completion, whose error reaches
  the `catch` clauses (`BoltClient.swift:192-198`);
- the draining PULL_ALL, the body and the commit block, all run inside the BEGIN
  completion, whose errors leave `executeAsTransaction` (`BoltClient.swift:151-158`);
- the PULL_ALL inside the COMMIT and ROLLBACK completions (`BoltClient.swift:124`,
  `BoltClient.swift:135`).

Without it, those paths would stay blocked instead of throwing.

## Model

| member | source | states |
|---|---|---|
| Transactions.Fresh | Sources/Theo/Bolt/BoltClient.swift:15-23 | A new transaction has `succeed` true, `autocommit` true, a nil bookmark and the no-op commit block. |
| Transactions.MarkAsFailed | Sources/Theo/Bolt/BoltClient.swift:25-27 | Afterwards `succeed` is false, and the bookmark, autocommit flag and commit block are unchanged. |
| Transactions.MarkAsFailedIdempotent | Sources/Theo/Bolt/BoltClient.swift:25-27 | Marking twice equals marking once; a failed transaction is left exactly as it was; `succeed` never goes back to true. |
| Client.MarkCurrentFailed | Sources/Theo/Bolt/BoltClient.swift:211-213 | Only the transaction `currentTransaction` refers to is marked failed; every other transaction object, the current handle and the connection are untouched. |
| Client.ClientError | Sources/Theo/Bolt/BoltClient.swift:219-235 | A thrown error becomes `syntaxError` exactly when the server reported a syntax error, and then carries the same message. Every other error becomes `notImplemented`. |
| Client.GetBookmarkAfterRequest | Sources/Theo/Bolt/BoltClient.swift:256-258 | `getBookmark()` reports the connection's bookmark. After a request it is the bookmark the completion carried, when it completes with one, and otherwise it is unchanged. |
| Client.PullAndIgnore | Sources/Theo/Bolt/BoltClient.swift:92-105 | Sends exactly one PULL_ALL. The call returns exactly when the PULL_ALL completes, whatever its success flag. The current transaction's bookmark then equals the connection's bookmark when that is non-nil. The bookmark it copies is the one the PULL_ALL's completion carries, else the connection's earlier bookmark; with neither, the transaction keeps its own. A PULL_ALL that throws or never completes, or a nil connection bookmark, leaves every transaction unchanged. Nothing but a bookmark ever changes. |
| Client.ExecuteCypher | Sources/Theo/Bolt/BoltClient.swift:180-245 | Sends RUN, and sends PULL_ALL only when RUN succeeded. The result is a success exactly when both requests succeeded, and then it is the pair of their two responses. A thrown error maps through `ClientError`. An unsuccessful RUN or PULL_ALL marks the current transaction failed and yields `notImplemented`. In every other case the transactions, and so their bookmarks, are unchanged. |
| Client.ExecuteCypherWithCallback | Sources/Theo/Bolt/BoltClient.swift:247-254 | Sends RUN only, never PULL_ALL, and touches no transaction. The completion block receives RUN's success flag exactly when RUN completes, and a thrown error is rethrown. |
| Client.QueryStep | Sources/Theo/Bolt/BoltClient.swift:180-245 | A synchronous `executeCypher` in a body: it sends RUN, then PULL_ALL only after a successful RUN, never throws, and touches no bookmark or autocommit flag. A RUN or PULL_ALL that completes unsuccessfully makes it return, with that completion among the outcomes it consumed. Otherwise no transaction changes. |
| Client.Perform | Sources/Theo/Bolt/BoltClient.swift:17-27 | One body step on the body's transaction `tx`. A synchronous query sends its RUN, then PULL_ALL only if the RUN succeeded. A callback-form query sends its RUN only. Any other step sends nothing. `markAsFailed()` leaves `tx` failed. Each assignment sets its field of `tx`. A synchronous query whose RUN or PULL_ALL completes unsuccessfully returns, and the failed completion lies among the outcomes it consumed. No other step changes any `succeed` flag. Only `tx.succeed = true` can revive a failed transaction, and only `tx.bookmark = …` changes a bookmark. No step touches a commit block. |
| Client.PerformEnds | Sources/Theo/Bolt/BoltClient.swift:180-254 | How a step ends. A throwing body throws its own error. A synchronous query never throws and blocks exactly when RUN, or the PULL_ALL after a successful RUN, is never answered. The callback form never blocks and rethrows exactly the error thrown for its RUN. Every other step returns. |
| Client.RunBody | Sources/Theo/Bolt/BoltClient.swift:156 | A body run changes only its own transaction and the current one. Its requests are answered in issue order. The run ends at the first step that throws or blocks. A body with no `tx.succeed = true` revives no transaction. A body with no `tx.bookmark` assignment changes no bookmark. No commit block changes. |
| Client.InvokeCommitBlock | Sources/Theo/Bolt/BoltClient.swift:120-143 | The no-op block sends nothing and changes nothing. The armed block sends COMMIT if `succeed` else ROLLBACK, then PULL_ALL once that completes. It returns, with `currentTransaction` cleared, exactly when both complete, successful or not. Then the current transaction's bookmark is the connection's non-nil bookmark. If it does not return, or the connection bookmark is nil, no transaction changes. `succeed` and `autocommit` never change. |
| Client.Finish | Sources/Theo/Bolt/BoltClient.swift:157-160 | With autocommit off, nothing is sent and the caller stays blocked. With autocommit on, the armed block is invoked with the transaction's own `succeed` flag and is the no-op afterwards. No `succeed` flag changes. |
| Client.Proceed | Sources/Theo/Bolt/BoltClient.swift:152-160 | After a successful BEGIN only the new transaction changes. A normal return means every request was answered and the transaction is no longer current. Any other ending leaves it current. |
| Client.BeginSent | Sources/Theo/Bolt/BoltClient.swift:145-151 | The new transaction, with the defaults and an armed commit block, becomes current and BEGIN is the one request sent. |
| Client.ExecuteAsTransaction | Sources/Theo/Bolt/BoltClient.swift:115-170 | Creates one new transaction and leaves older ones untouched. After an unsuccessful BEGIN the trace is BEGIN alone, the call returns, the transaction stays current and equals a fresh one (commit block no-op). When BEGIN throws, the call rethrows that error, the trace is BEGIN alone, and the transaction stays current with its block armed. A transaction is left non-current only by a normal return after a successful BEGIN. |
| TransactionProperties.RunBodyAutocommit | Sources/Theo/Bolt/BoltClient.swift:19 | After a body that returns, `autocommit` is the value of the body's last assignment to it, or the initial value if there was none. |
| TransactionProperties.RunBodyMarksFailed | Sources/Theo/Bolt/BoltClient.swift:25-27 | A body that fails its transaction, by `markAsFailed()` or `tx.succeed = false`, and never sets `succeed` back to true afterwards leaves it failed if it returns. |
| TransactionProperties.RunBodyKeepsSucceed | Sources/Theo/Bolt/BoltClient.swift:202-213 | A body that never calls `markAsFailed()` or assigns `succeed`, and none of whose requests completes unsuccessfully, leaves every `succeed` flag as it was. Equivalently, a body that changes a `succeed` flag called `markAsFailed()`, assigned it, or had a request complete unsuccessfully. |
| TransactionProperties.RunBodyStaysSucceeded | Sources/Theo/Bolt/BoltClient.swift:202-213 | A succeeding transaction still succeeds after a body that never calls `markAsFailed()` or assigns `tx.succeed = false`, and none of whose requests completes unsuccessfully. |
| TransactionProperties.RunBodyAppend | Sources/Theo/Bolt/BoltClient.swift:156 | Running two bodies in turn is running their concatenation: the second starts where the first left off, and only if the first returned. |
| TransactionProperties.RunBodyStops | Sources/Theo/Bolt/BoltClient.swift:156 | Once a step throws or blocks, the body ends there with that step's outcome, and the later steps never run. |
| TransactionProperties.RevivedStaysSucceeded | Sources/Theo/Bolt/BoltClient.swift:17 | `tx.succeed = true` revives a transaction, even a failed one. It then still succeeds at the end of the body if no later step fails it and no later request completes unsuccessfully. |
| TransactionProperties.RunBodyRequests | Sources/Theo/Bolt/BoltClient.swift:190-198 | Every request a body sends is the RUN of one of its queries, or a PULL_ALL, and a PULL_ALL occurs only when the body contains a synchronous query. |
| TransactionProperties.FailedQueryMarksTransaction | Sources/Theo/Bolt/BoltClient.swift:198-215 | Inside a transaction, a synchronous query whose RUN or PULL_ALL completes unsuccessfully marks the transaction failed, and the body continues. |
| TransactionProperties.ProceedCloses | Sources/Theo/Bolt/BoltClient.swift:120-160 | With autocommit on after the body, the trace continues with COMMIT or ROLLBACK as `succeed` says, then PULL_ALL. Once both complete, successful or not, the transaction is no longer current, its block is the no-op, and `succeed` is unchanged. |
| TransactionProperties.ProceedWithoutAutocommit | Sources/Theo/Bolt/BoltClient.swift:157-169 | With autocommit off after the body, no COMMIT or ROLLBACK is sent. The call stays blocked, with the transaction still current and its block still armed. |
| TransactionProperties.TransactionTrace | Sources/Theo/Bolt/BoltClient.swift:145-160 | A transaction that returns after a successful BEGIN has exactly the trace BEGIN, PULL_ALL, then the requests its body sends from the drained state, then COMMIT or ROLLBACK matching its final `succeed`, then PULL_ALL. The final `succeed` is the one the body left. Afterwards nothing is current, the block is the no-op, autocommit was on, and the transaction holds the connection's non-nil bookmark. |
| TransactionProperties.RollbackAfterMarkAsFailed | Sources/Theo/Bolt/BoltClient.swift:131-141 | If the body failed the transaction, by `markAsFailed()` or `tx.succeed = false`, and did not set `succeed` back to true afterwards, a returning transaction ends with ROLLBACK, PULL_ALL. |
| TransactionProperties.CommitWithoutFailure | Sources/Theo/Bolt/BoltClient.swift:121-130 | If the body never calls `markAsFailed()` or assigns `tx.succeed = false`, and none of its requests completes unsuccessfully, a returning transaction ends with COMMIT, PULL_ALL. |
| TransactionProperties.BodyFaultPropagates | Sources/Theo/Bolt/BoltClient.swift:151-158 | After an accepted and drained BEGIN, a body that throws or blocks ends the call the same way. No COMMIT or ROLLBACK is sent, the trace ends with the body's requests, and the transaction stays current with its commit block armed. |
| TransactionProperties.CommitBlockFiresOnce | Sources/Theo/Bolt/BoltClient.swift:159-164 | After `executeAsTransaction` returns, invoking the transaction's commit block again sends nothing and changes nothing. |
| TransactionProperties.BookmarkArgumentUnused | Sources/Theo/Bolt/BoltClient.swift:115-119 | The result does not depend on the `bookmark:` argument. |

The connection oracle has its own lemmas, with no rows above. `Protocol.SendLockstep`,
`Protocol.LockstepTrans` and `Protocol.LockstepAnswered` state the sequencing
discipline: requests are answered one at a time, in issue order, one outcome each, and
a request is left unanswered only once the script has run out. The predicate behind them,
`Protocol.Lockstep`, also fixes the connection's bookmark. After any run of requests it is the bookmark of the latest
delivered completion that carried one, or the earlier bookmark if none did
(`Protocol.BookmarkAfter`, composed by `Protocol.BookmarkAfterSplit`). So every client
call's contract states what `getBookmark()` reports afterwards. `Client.GetBookmark` is
`getBookmark()` (`BoltClient.swift:256-258`). The contracts of `PullAndIgnore` and
`TransactionTrace` use it, and `GetBookmarkAfterRequest` states how it moves.

## Left out

- Construction of the socket, TLS settings and credentials (`BoltClient.swift:43-65`):
  this is I/O setup done by libraries outside this model.
- `connect` (`BoltClient.swift:72-89`): this is transport setup. The model's connection
  is already connected.
- `DispatchGroup` enter/leave/wait and thread hand-off: execution is sequential. A call
  whose completion never comes is reported as `Blocked`/`Blocks`, and no liveness is
  claimed. That includes the permanent block when a body turns `autocommit` off.
- The wire encoding of requests, `Map` and `PackProtocol` values: requests are the
  abstract `Run(statement, parameters) | PullAll`, and values and responses are opaque.
- `pullAll(completionBlock:)` (`BoltClient.swift:107-113`): it only passes the result
  through.
- `executeTransaction(parameteredQueries:)` (`BoltClient.swift:172-174`) and the CRUD
  extension (`BoltClient.swift:262-298`): these are empty stubs.
- `print` logging and the debug-build `assert(false)`: only the returned `notImplemented`
  is modelled.
- The completion block of the callback form of `executeCypher`: it is caller code. The
  model reports only the flag it receives, and ignores an error the block itself throws.
- Client.RunBody: the body is a fixed script of steps. It can call the client's query
  operations and assign the public fields of its own transaction. It cannot branch on
  query results, start a nested transaction, keep references to other transaction
  objects, call the public `pullAll(completionBlock:)` or `connect`, or run other caller
  code.
- TransactionProperties.RunBodyRequests: the claim that a PULL_ALL occurs only when the
  body contains a synchronous query holds only for bodies that do not call
  `pullAll(completionBlock:)`. The model's bodies cannot call it.
- Client.RunBody: the request-ordering contract admits requests left unanswered. The
  callback form does not wait for its completion, so once the script has run out a body
  can keep sending.

=== FILE: client.dfy ===
/** `BoltClient`: request sequencing and the explicit-transaction state machine, driven by
    the scripted connection of module Protocol. Every operation is a pure function from
    the session state to the new session state and the way the call ends. */
module Client {
  import opened SwiftTypes
  import opened Protocol
  import opened Transactions

  datatype BoltClientError = NotImplemented | SyntaxError(message: string)

  /** Transactions are objects in Swift: `currentTransaction` and the `tx` a body receives
      are references to the same one. The session keeps every transaction object created
      so far in `store`, and `current` holds the handle `currentTransaction` refers to. */
  datatype Session = Session(store: seq<Transaction>, current: Option<nat>, conn: Conn) {

    predicate Valid() {
      current.Some? ==> current.value < |store|
    }
  }

  /** What a `throws` call threw: an error of the connection, or one raised by the body. */
  datatype Fault = ConnectionFault(error: ConnError) | BodyFault(reason: string)

  /** How a call that returns nothing ends: it returns, it throws, or the calling thread
      stays blocked in `DispatchGroup.wait()` because the awaited completion never comes. */
  datatype Flow = Normal | Threw(fault: Fault) | Blocked

  datatype Step = Step(session: Session, flow: Flow)

  /** How a synchronous call with a result ends: it returns the value, or stays blocked. */
  datatype Sync<+T> = Returns(value: T) | Blocks

  type QueryResult = Result<(Responses, Responses), BoltClientError>

  datatype CypherStep = CypherStep(session: Session, call: Sync<QueryResult>)

  /** `getBookmark()`: the connection's bookmark of the last acknowledged transaction. */
  function GetBookmark(s: Session): Option<string>
  {
    s.conn.bookmark
  }

  /** What `getBookmark()` reports after one more request: the bookmark its completion
      carries, if it completes with one, and otherwise the bookmark reported before. */
  lemma GetBookmarkAfterRequest(s: Session, req: Request)
    ensures var b := GetBookmark(s.(conn := Send(s.conn, req).conn));
            if Completes(s.conn, 0) && Peek(s.conn, 0).value.bookmark.Some?
            then b == Peek(s.conn, 0).value.bookmark
            else b == GetBookmark(s)
  {
  }

  /** No transaction object that existed in `s` went from failed back to succeeded. */
  predicate FailuresKept(s: Session, s': Session)
  {
    && |s.store| <= |s'.store|
    && forall i :: 0 <= i < |s.store| ==> FailureKept(s.store[i], s'.store[i])
  }

  /** `currentTransaction?.markAsFailed()` */
  function MarkCurrentFailed(s: Session): (r: Session)
    requires s.Valid()
    ensures r.Valid() && r.current == s.current && r.conn == s.conn
    ensures |r.store| == |s.store|
    ensures forall i :: 0 <= i < |s.store| && s.current != Some(i) ==> r.store[i] == s.store[i]
    ensures s.current.Some? ==> r.store[s.current.value] == MarkAsFailed(s.store[s.current.value])
  {
    match s.current
    case None => s
    case Some(h) => s.(store := s.store[h := MarkAsFailed(s.store[h])])
  }

  /** The error a caught connection error is reported as (the two `catch` clauses). */
  function ClientError(e: ConnError): (r: BoltClientError)
    ensures r.SyntaxError? <==> e.ServerSyntaxError?
    ensures r.SyntaxError? ==> r.message == e.message
  {
    match e
    case ServerSyntaxError(message) => SyntaxError(message)
    case TransportError(_) => NotImplemented
  }

  /** `pullSynchronouslyAndIgnore()`: issues PULL_ALL and, once it completes, successfully or
      not, copies the connection's bookmark into the current transaction when there is one
      to copy. Nothing but that bookmark changes. */
  function PullAndIgnore(s: Session): (r: Step)
    requires s.Valid()
    ensures r.session.Valid() && r.session.current == s.current
    ensures |r.session.store| == |s.store|
    ensures Lockstep(s.conn, r.session.conn, r.flow.Blocked?)
    ensures r.session.conn.log == s.conn.log + [PullAll]
    ensures r.flow.Normal? <==> Completes(s.conn, 0)
    ensures r.flow.Threw? <==> Throws(s.conn, 0)
    ensures r.flow.Threw? ==> r.flow.fault == ConnectionFault(Peek(s.conn, 0).value.error)
    ensures r.flow.Normal? && s.current.Some? && GetBookmark(r.session).Some? ==>
              r.session.store[s.current.value].bookmark == GetBookmark(r.session)
    ensures forall i :: 0 <= i < |s.store| ==>
              && r.session.store[i].succeed == s.store[i].succeed
              && r.session.store[i].autocommit == s.store[i].autocommit
              && r.session.store[i].commitBlock == s.store[i].commitBlock
    ensures forall i :: 0 <= i < |s.store| && s.current != Some(i) ==> r.session.store[i] == s.store[i]
    ensures !r.flow.Normal? || GetBookmark(r.session).None? ==> r.session.store == s.store
    ensures r.flow.Normal? && s.current.Some? ==>
              r.session.store[s.current.value].bookmark ==
                if Peek(s.conn, 0).value.bookmark.Some? then Peek(s.conn, 0).value.bookmark
                else if GetBookmark(s).Some? then GetBookmark(s)
                else s.store[s.current.value].bookmark
  {
    SendLockstep(s.conn, PullAll);
    var x := Send(s.conn, PullAll);
    var s1 := s.(conn := x.conn);
    match x.reply
    case None => Step(s1, Blocked)
    case Some(Thrown(e)) => Step(s1, Threw(ConnectionFault(e)))
    case Some(Completed(_, _, _)) =>
      match (GetBookmark(s1), s1.current)
      case (Some(b), Some(h)) =>
        Step(s1.(store := s1.store[h := s1.store[h].(bookmark := Some(b))]), Normal)
      case _ => Step(s1, Normal)
  }

  /** The RUN completes unsuccessfully, or it succeeds and the PULL_ALL after it completes
      unsuccessfully: the two cases in which `executeCypher` marks the transaction failed. */
  predicate CypherFails(c: Conn)
  {
    CompletesWith(c, 0, false) || (CompletesWith(c, 0, true) && CompletesWith(c, 1, false))
  }

  /** The synchronous `executeCypher(_:params:)`. RUN is issued first and PULL_ALL only after
      a successful RUN; a RUN or PULL_ALL that completes unsuccessfully marks the current
      transaction failed; a thrown error is caught and reported. The result is a success
      exactly when both requests succeeded, and then holds their two responses. No
      bookmark is touched. */
  function ExecuteCypher(s: Session, query: string, params: Option<Params>): (r: CypherStep)
    requires s.Valid()
    ensures r.session.Valid() && r.session.current == s.current
    ensures Lockstep(s.conn, r.session.conn, r.call.Blocks?)
    ensures r.session.conn.log ==
              s.conn.log + [Run(query, params.GetOr(map[]))]
              + (if CompletesWith(s.conn, 0, true) then [PullAll] else [])
    ensures r.call.Blocks? <==>
              Peek(s.conn, 0).None? || (CompletesWith(s.conn, 0, true) && Peek(s.conn, 1).None?)
    ensures r.call.Returns? && r.call.value.Success? <==>
              CompletesWith(s.conn, 0, true) && CompletesWith(s.conn, 1, true)
    ensures r.call.Returns? && r.call.value.Success? ==>
              r.call.value.value == (Peek(s.conn, 0).value.response, Peek(s.conn, 1).value.response)
    ensures Throws(s.conn, 0) ==>
              r.call == Returns(Failure(ClientError(Peek(s.conn, 0).value.error)))
    ensures CompletesWith(s.conn, 0, true) && Throws(s.conn, 1) ==>
              r.call == Returns(Failure(ClientError(Peek(s.conn, 1).value.error)))
    ensures CypherFails(s.conn) ==>
              r.call == Returns(Failure(NotImplemented)) && r.session.store == MarkCurrentFailed(s).store
    ensures !CypherFails(s.conn) ==> r.session.store == s.store
  {
    var run := Run(query, params.GetOr(map[]));
    SendLockstep(s.conn, run);
    var x := Send(s.conn, run);
    var s1 := s.(conn := x.conn);
    match x.reply
    case None => CypherStep(s1, Blocks)
    case Some(Thrown(e)) => CypherStep(s1, Returns(Failure(ClientError(e))))
    case Some(Completed(false, _, _)) => CypherStep(MarkCurrentFailed(s1), Returns(Failure(NotImplemented)))
    case Some(Completed(true, meta, _)) =>
      SendLockstep(s1.conn, PullAll);
      LockstepTrans(s.conn, s1.conn, Send(s1.conn, PullAll).conn, false, Send(s1.conn, PullAll).reply.None?);
      var y := Send(s1.conn, PullAll);
      var s2 := s1.(conn := y.conn);
      match y.reply
      case None => CypherStep(s2, Blocks)
      case Some(Thrown(e)) => CypherStep(s2, Returns(Failure(ClientError(e))))
      case Some(Completed(false, _, _)) => CypherStep(MarkCurrentFailed(s2), Returns(Failure(NotImplemented)))
      case Some(Completed(true, records, _)) => CypherStep(s2, Returns(Success((meta, records))))
  }

  /** What happens to the completion block of the callback form of `executeCypher`. */
  datatype Callback = Delivered(success: bool) | Raised(error: ConnError) | NotCalled

  datatype CallbackStep = CallbackStep(session: Session, callback: Callback)

  /** The callback form of `executeCypher`: RUN only, never PULL_ALL, and the completion
      block receives the RUN's success flag. Transactions are left alone. */
  function ExecuteCypherWithCallback(s: Session, query: string, params: Option<Params>): (r: CallbackStep)
    ensures r.session.store == s.store && r.session.current == s.current
    ensures r.session.conn.log == s.conn.log + [Run(query, params.GetOr(map[]))]
    ensures Lockstep(s.conn, r.session.conn, r.callback.NotCalled?)
    ensures r.callback.Delivered? <==> Completes(s.conn, 0)
    ensures r.callback.Delivered? ==> r.callback.success == Peek(s.conn, 0).value.success
    ensures r.callback.Raised? <==> Throws(s.conn, 0)
    ensures r.callback.Raised? ==> Peek(s.conn, 0) == Some(Thrown(r.callback.error))
  {
    var run := Run(query, params.GetOr(map[]));
    SendLockstep(s.conn, run);
    var x := Send(s.conn, run);
    var s1 := s.(conn := x.conn);
    match x.reply
    case None => CallbackStep(s1, NotCalled)
    case Some(Thrown(e)) => CallbackStep(s1, Raised(e))
    case Some(Completed(success, _, _)) => CallbackStep(s1, Delivered(success))
  }

  /** One thing a transaction body does with the client and the transaction it was given. */
  datatype BodyStep =
    | Cypher(query: string, params: Option<Params>)              // synchronous executeCypher
    | CypherWithCallback(query: string, params: Option<Params>)  // `try` of the callback form
    | MarkFailed                                                 // tx.markAsFailed()
    | SetAutocommit(on: bool)                                    // tx.autocommit = on
    | SetSucceed(on: bool)                                       // tx.succeed = on
    | SetBookmark(bookmark: Option<string>)                      // tx.bookmark = bookmark
    | Raise(reason: string)                                      // the body throws

  /** No step assigns `tx.succeed = true`, the only way a body can revive a failed
      transaction. */
  predicate NoRevival(body: seq<BodyStep>)
  {
    forall i :: 0 <= i < |body| ==> body[i] != SetSucceed(true)
  }

  /** No step assigns `tx.bookmark`. */
  predicate KeepsBookmarks(body: seq<BodyStep>)
  {
    forall i :: 0 <= i < |body| ==> !body[i].SetBookmark?
  }

  /** The contract shared by a body step and a whole body run on transaction `h`: the
      requests go out in lockstep (the callback form does not wait for its completion, so
      a request may stay unanswered once the script has run out), only `h` and the current
      transaction can change, no transaction but `h` is revived or has its bookmark
      changed, and no commit block is touched. */
  predicate BodyEffect(s: Session, h: nat, r: Step)
    requires s.Valid() && h < |s.store|
  {
    && r.session.Valid()
    && r.session.current == s.current
    && |r.session.store| == |s.store|
    && Lockstep(s.conn, r.session.conn, true)
    && (forall i :: 0 <= i < |s.store| && i != h && s.current != Some(i) ==>
          r.session.store[i] == s.store[i])
    && (forall i :: 0 <= i < |s.store| ==>
          && r.session.store[i].commitBlock == s.store[i].commitBlock
          && (i != h ==> FailureKept(s.store[i], r.session.store[i]))
          && (i != h ==> r.session.store[i].bookmark == s.store[i].bookmark)
          && (i != h ==> r.session.store[i].autocommit == s.store[i].autocommit))
  }

  /** A synchronous query as a body step: the result of `executeCypher` is discarded, and
      the step blocks only if the call does. Only the current transaction can change, and
      only by being marked failed. */
  function QueryStep(s: Session, h: nat, query: string, params: Option<Params>): (r: Step)
    requires s.Valid() && h < |s.store|
    ensures BodyEffect(s, h, r) && FailuresKept(s, r.session) && !r.flow.Threw?
    ensures forall i :: 0 <= i < |s.store| ==>
              && r.session.store[i].bookmark == s.store[i].bookmark
              && r.session.store[i].autocommit == s.store[i].autocommit
    ensures r.session.conn.log ==
              s.conn.log + [Run(query, params.GetOr(map[]))]
              + (if CompletesWith(s.conn, 0, true) then [PullAll] else [])
    ensures CypherFails(s.conn) ==>
              r.flow.Normal? && UnsuccessfulIn(s.conn.script, s.conn.next, r.session.conn.next)
    ensures !CypherFails(s.conn) ==> r.session.store == s.store
  {
    var c := ExecuteCypher(s, query, params);
    assert CompletesWith(s.conn, 0, false) ==> Unsuccessful(s.conn.script[s.conn.next]);
    assert CompletesWith(s.conn, 0, true) && CompletesWith(s.conn, 1, false) ==>
             Unsuccessful(s.conn.script[s.conn.next + 1]);
    Step(c.session, if c.call.Blocks? then Blocked else Normal)
  }

  /** One step of a transaction body on its transaction `h`. Queries go to the connection;
      `markAsFailed()` and the assignments change `h` alone; a throwing body throws its
      own error. Only a synchronous query that completes unsuccessfully, `markAsFailed()`
      and an assignment to `succeed` change a `succeed` flag, and only `tx.succeed = true`
      can revive a failed transaction. */
  function Perform(s: Session, h: nat, step: BodyStep): (r: Step)
    requires s.Valid() && h < |s.store|
    ensures BodyEffect(s, h, r)
    ensures step.MarkFailed? ==> r.flow.Normal? && !r.session.store[h].succeed
    ensures step.SetAutocommit? ==> r.flow.Normal? && r.session.store[h].autocommit == step.on
    ensures step.SetSucceed? ==> r.flow.Normal? && r.session.store[h].succeed == step.on
    ensures step.SetBookmark? ==> r.flow.Normal? && r.session.store[h].bookmark == step.bookmark
    ensures !step.SetAutocommit? ==> r.session.store[h].autocommit == s.store[h].autocommit
    ensures step != SetSucceed(true) ==> FailuresKept(s, r.session)
    ensures !step.SetBookmark? ==>
              forall i :: 0 <= i < |s.store| ==> r.session.store[i].bookmark == s.store[i].bookmark
    ensures !step.Cypher? && !step.CypherWithCallback? ==> r.session.conn == s.conn
    ensures step.Cypher? ==>
              r.session.conn.log ==
                s.conn.log + [Run(step.query, step.params.GetOr(map[]))]
                + (if CompletesWith(s.conn, 0, true) then [PullAll] else [])
    ensures step.CypherWithCallback? ==>
              r.session.conn.log == s.conn.log + [Run(step.query, step.params.GetOr(map[]))]
    ensures step.Cypher? && CypherFails(s.conn) ==>
              r.flow.Normal? && UnsuccessfulIn(s.conn.script, s.conn.next, r.session.conn.next)
    ensures !step.MarkFailed? && !step.SetSucceed? && !(step.Cypher? && CypherFails(s.conn)) ==>
              forall i :: 0 <= i < |s.store| ==> r.session.store[i].succeed == s.store[i].succeed
    ensures r.flow.Threw? ==> step.Raise? || step.CypherWithCallback?
  {
    match step
    case Cypher(query, params) =>
      QueryStep(s, h, query, params)
    case CypherWithCallback(query, params) =>
      var c := ExecuteCypherWithCallback(s, query, params);
      Step(c.session, if c.callback.Raised? then Threw(ConnectionFault(c.callback.error)) else Normal)
    case MarkFailed =>
      Step(s.(store := s.store[h := MarkAsFailed(s.store[h])]), Normal)
    case SetAutocommit(on) =>
      Step(s.(store := s.store[h := s.store[h].(autocommit := on)]), Normal)
    case SetSucceed(on) =>
      Step(s.(store := s.store[h := s.store[h].(succeed := on)]), Normal)
    case SetBookmark(bookmark) =>
      Step(s.(store := s.store[h := s.store[h].(bookmark := bookmark)]), Normal)
    case Raise(reason) =>
      Step(s, Threw(BodyFault(reason)))
  }

  /** How a body step ends. A throwing body throws its own error. A synchronous query never
      throws, since `executeCypher` catches and reports, and it blocks exactly when RUN, or
      the PULL_ALL after a successful RUN, is never answered. The callback form never
      waits, and it rethrows exactly the error the connection throws for its RUN. Every
      other step returns. */
  lemma PerformEnds(s: Session, h: nat, step: BodyStep)
    requires s.Valid() && h < |s.store|
    ensures var r := Perform(s, h, step);
            && (step.Raise? ==> r == Step(s, Threw(BodyFault(step.reason))))
            && (step.Cypher? ==>
                  && !r.flow.Threw?
                  && (r.flow.Blocked? <==>
                        Peek(s.conn, 0).None? || (CompletesWith(s.conn, 0, true) && Peek(s.conn, 1).None?)))
            && (step.CypherWithCallback? ==>
                  && !r.flow.Blocked?
                  && (r.flow.Threw? <==> Throws(s.conn, 0))
                  && (r.flow.Threw? ==> r.flow.fault == ConnectionFault(Peek(s.conn, 0).value.error)))
            && (step.MarkFailed? || step.SetAutocommit? || step.SetSucceed? || step.SetBookmark? ==>
                  r.flow.Normal?)
  {
  }

  /** `try transactionBlock(transaction)`: the steps run in order until one throws or blocks. */
  function RunBody(s: Session, h: nat, body: seq<BodyStep>): (r: Step)
    requires s.Valid() && h < |s.store|
    ensures BodyEffect(s, h, r)
    ensures |body| == 0 ==> r == Step(s, Normal)
    ensures |body| > 0 && !Perform(s, h, body[0]).flow.Normal? ==> r == Perform(s, h, body[0])
    ensures NoRevival(body) ==> FailuresKept(s, r.session)
    ensures KeepsBookmarks(body) ==>
              forall i :: 0 <= i < |s.store| ==> r.session.store[i].bookmark == s.store[i].bookmark
    decreases |body|
  {
    if |body| == 0 then Step(s, Normal)
    else
      var p := Perform(s, h, body[0]);
      if !p.flow.Normal? then p
      else
        var q := RunBody(p.session, h, body[1..]);
        LockstepTrans(s.conn, p.session.conn, q.session.conn, true, true);
        assert NoRevival(body) ==> body[0] != SetSucceed(true) && NoRevival(body[1..]);
        assert KeepsBookmarks(body) ==> !body[0].SetBookmark? && KeepsBookmarks(body[1..]);
        q
  }

  /** The statement the commit block sends for a given `succeed` flag. */
  function Close(succeed: bool): Request
  {
    if succeed then Commit() else Rollback()
  }

  /** Invoking `transaction.commitBlock(succeed)`. The no-op block issues nothing. The armed
      block issues COMMIT or ROLLBACK, drains with a PULL_ALL once that completes (whatever
      its success), and then clears `currentTransaction`. The outcome of COMMIT/ROLLBACK
      never changes whether a transaction succeeded. */
  function InvokeCommitBlock(s: Session, h: nat, succeed: bool): (r: Step)
    requires s.Valid() && h < |s.store|
    ensures s.store[h].commitBlock == NoOp ==> r == Step(s, Normal)
    ensures r.session.Valid() && |r.session.store| == |s.store|
    ensures Lockstep(s.conn, r.session.conn, r.flow.Blocked?)
    ensures s.store[h].commitBlock == Armed ==>
              r.session.conn.log ==
                s.conn.log + [Close(succeed)] + (if Completes(s.conn, 0) then [PullAll] else [])
    ensures s.store[h].commitBlock == Armed ==>
              (r.flow.Normal? <==> Completes(s.conn, 0) && Completes(s.conn, 1))
    ensures r.flow.Normal? && s.store[h].commitBlock == Armed ==> r.session.current == None
    ensures !r.flow.Normal? ==> r.session.current == s.current
    ensures r.flow.Normal? && s.store[h].commitBlock == Armed && s.current.Some?
            && GetBookmark(r.session).Some? ==>
              r.session.store[s.current.value].bookmark == GetBookmark(r.session)
    ensures forall i :: 0 <= i < |s.store| ==>
              && r.session.store[i].succeed == s.store[i].succeed
              && r.session.store[i].autocommit == s.store[i].autocommit
              && r.session.store[i].commitBlock == s.store[i].commitBlock
    ensures forall i :: 0 <= i < |s.store| && s.current != Some(i) ==> r.session.store[i] == s.store[i]
    ensures !r.flow.Normal? || GetBookmark(r.session).None? ==> r.session.store == s.store
  {
    if s.store[h].commitBlock == NoOp then Step(s, Normal)
    else
      var close := Close(succeed);
      SendLockstep(s.conn, close);
      var x := Send(s.conn, close);
      var s1 := s.(conn := x.conn);
      match x.reply
      case None => Step(s1, Blocked)
      case Some(Thrown(e)) => Step(s1, Threw(ConnectionFault(e)))
      case Some(Completed(_, _, _)) =>
        var p := PullAndIgnore(s1);
        LockstepTrans(s.conn, s1.conn, p.session.conn, false, p.flow.Blocked?);
        if p.flow.Normal? then Step(p.session.(current := None), Normal) else p
  }

  /** What follows a body that returned normally: with autocommit on, the commit block fires
      with the transaction's own `succeed` flag and is replaced by the no-op block; with
      autocommit off nothing is sent and the caller stays blocked, since only the commit
      block's completion releases it. */
  function Finish(s: Session, h: nat): (r: Step)
    requires s.Valid() && h < |s.store|
    ensures !s.store[h].autocommit ==> r == Step(s, Blocked)
    ensures r.session.Valid() && |r.session.store| == |s.store|
    ensures Lockstep(s.conn, r.session.conn, r.flow.Blocked?)
    ensures s.store[h].autocommit && s.store[h].commitBlock == Armed ==>
              r.session.conn.log ==
                s.conn.log + [Close(s.store[h].succeed)]
                + (if Completes(s.conn, 0) then [PullAll] else [])
    ensures r.flow.Normal? ==> r.session.store[h].commitBlock == NoOp
    ensures forall i :: 0 <= i < |s.store| ==>
              && r.session.store[i].succeed == s.store[i].succeed
              && r.session.store[i].autocommit == s.store[i].autocommit
    ensures forall i :: 0 <= i < |s.store| && s.current != Some(i) && i != h ==>
              r.session.store[i] == s.store[i]
  {
    if s.store[h].autocommit then
      var c := InvokeCommitBlock(s, h, s.store[h].succeed);
      if c.flow.Normal? then
        Step(c.session.(store := c.session.store[h := c.session.store[h].(commitBlock := NoOp)]), Normal)
      else c
    else Step(s, Blocked)
  }

  /** The result of `executeAsTransaction`: the session afterwards, the handle of the
      transaction object it created, and how the call ended. */
  datatype TxRun = TxRun(session: Session, handle: nat, flow: Flow)

  /** The transaction object `executeAsTransaction` creates: defaults, armed commit block. */
  function NewArmed(): Transaction
  {
    Fresh().(commitBlock := Armed)
  }

  /** The BEGIN callback on success, for the current transaction `h` with its armed commit
      block: a draining PULL_ALL, the body, then `Finish`. Only `h` changes; a normal
      return means every request was answered and `h` is no longer current, any other
      ending leaves `h` current. */
  function Proceed(s: Session, h: nat, body: seq<BodyStep>): (r: Step)
    requires s.Valid() && s.current == Some(h) && h < |s.store|
    requires s.store[h].commitBlock == Armed
    ensures r.session.Valid() && |r.session.store| == |s.store|
    ensures forall i :: 0 <= i < |s.store| && i != h ==> r.session.store[i] == s.store[i]
    ensures Lockstep(s.conn, r.session.conn, !r.flow.Normal?)
    ensures r.session.current == (if r.flow.Normal? then None else Some(h))
  {
    var p := PullAndIgnore(s);
    if !p.flow.Normal? then p
    else
      var b := RunBody(p.session, h, body);
      LockstepTrans(s.conn, p.session.conn, b.session.conn, false, true);
      if !b.flow.Normal? then b
      else
        var f := Finish(b.session, h);
        if f.flow.Normal? then
          LockstepAnswered(s.conn, b.session.conn, f.session.conn, true);
          f
        else
          LockstepTrans(s.conn, b.session.conn, f.session.conn, true, f.flow.Blocked?);
          f
  }

  /** `executeAsTransaction(bookmark:transactionBlock:)`. A new transaction becomes the current
      one and BEGIN is issued. On a successful BEGIN, `Proceed` drains it, runs the body and
      closes the transaction; on an unsuccessful BEGIN the body is skipped, nothing more
      is sent and the commit block is neutralised, but the transaction stays current.
      Transactions created earlier are left as they were. The `bookmark` argument is never
      read. */
  function ExecuteAsTransaction(s: Session, bookmark: Option<string>, body: seq<BodyStep>): (r: TxRun)
    requires s.Valid()
    ensures r.session.Valid()
    ensures r.handle == |s.store| && |r.session.store| == |s.store| + 1
    ensures r.session.store[..|s.store|] == s.store
    ensures Lockstep(s.conn, r.session.conn, !r.flow.Normal?)
    ensures r.session.current == (if r.flow.Normal? && CompletesWith(s.conn, 0, true) then None else Some(r.handle))
    ensures CompletesWith(s.conn, 0, false) ==>
              && r.flow.Normal?
              && r.session.conn.log == s.conn.log + [Begin()]
              && r.session.store[r.handle] == Fresh()
    ensures Throws(s.conn, 0) ==>
              && r.flow == Threw(ConnectionFault(Peek(s.conn, 0).value.error))
              && r.session.conn.log == s.conn.log + [Begin()]
              && r.session.store[r.handle] == NewArmed()
  {
    var h := |s.store|;
    var s1 := BeginSent(s);
    match Peek(s.conn, 0)
    case None => TxRun(s1, h, Blocked)
    case Some(Thrown(e)) => TxRun(s1, h, Threw(ConnectionFault(e)))
    case Some(Completed(false, _, _)) =>
      TxRun(s1.(store := s1.store[h := s1.store[h].(commitBlock := NoOp)]), h, Normal)
    case Some(Completed(true, _, _)) =>
      var p := Proceed(s1, h, body);
      LockstepTrans(s.conn, s1.conn, p.session.conn, false, !p.flow.Normal?);
      TxRun(p.session, h, p.flow)
  }

  /** The session once the new transaction is current and BEGIN has been handed to the
      connection: the state the BEGIN callback starts from. */
  function BeginSent(s: Session): (r: Session)
    requires s.Valid()
    ensures r.Valid() && r.current == Some(|s.store|) && |r.store| == |s.store| + 1
    ensures r.store[..|s.store|] == s.store && r.store[|s.store|] == NewArmed()
    ensures r.conn.log == s.conn.log + [Begin()]
    ensures Lockstep(s.conn, r.conn, Peek(s.conn, 0).None?)
  {
    var s0 := s.(store := s.store + [NewArmed()], current := Some(|s.store|));
    SendLockstep(s0.conn, Begin());
    s0.(conn := Send(s0.conn, Begin()).conn)
  }
}

=== FILE: properties.dfy ===
/** Properties of the explicit-transaction protocol that relate several calls or phases:
    how a body run decides autocommit and COMMIT versus ROLLBACK, the request trace of a
    transaction, and the one-shot commit block. */
module TransactionProperties {
  import opened SwiftTypes
  import opened Protocol
  import opened Transactions
  import opened Client

  /** The autocommit flag after a body that starts with `autocommit` and returns normally:
      the value of its last `SetAutocommit` step, if any. */
  function FinalAutocommit(body: seq<BodyStep>, autocommit: bool): bool
    decreases |body|
  {
    if |body| == 0 then autocommit
    else FinalAutocommit(body[1..], if body[0].SetAutocommit? then body[0].on else autocommit)
  }

  /** A body's run leaves the transaction's autocommit flag as its last `SetAutocommit` set it. */
  lemma {:induction false} RunBodyAutocommit(s: Session, h: nat, body: seq<BodyStep>)
    requires s.Valid() && h < |s.store|
    requires RunBody(s, h, body).flow.Normal?
    ensures RunBody(s, h, body).session.store[h].autocommit == FinalAutocommit(body, s.store[h].autocommit)
    decreases |body|
  {
    if |body| > 0 {
      var p := Perform(s, h, body[0]);
      RunBodyAutocommit(p.session, h, body[1..]);
    }
  }

  /** Step `i` of the body fails its transaction, by `markAsFailed()` or by assigning
      `tx.succeed = false`, and no later step assigns `tx.succeed = true`. */
  predicate FailsFrom(body: seq<BodyStep>, i: nat)
  {
    i < |body| && (body[i] == MarkFailed || body[i] == SetSucceed(false)) && NoRevival(body[i + 1..])
  }

  /** A body that fails its transaction and does not set `succeed` back to true afterwards
      leaves it failed when it returns, whatever else it does. */
  lemma {:induction false} RunBodyMarksFailed(s: Session, h: nat, body: seq<BodyStep>, i: nat)
    requires s.Valid() && h < |s.store|
    requires FailsFrom(body, i)
    requires RunBody(s, h, body).flow.Normal?
    ensures !RunBody(s, h, body).session.store[h].succeed
    decreases i
  {
    var p := Perform(s, h, body[0]);
    if i == 0 {
      assert body[1..] == body[i + 1..];
    } else {
      assert body[1..][i - 1] == body[i] && body[1..][i..] == body[i + 1..];
      RunBodyMarksFailed(p.session, h, body[1..], i - 1);
    }
  }

  /** No step calls `markAsFailed()` or assigns `tx.succeed`. */
  predicate NoSucceedWrite(body: seq<BodyStep>)
  {
    forall i :: 0 <= i < |body| ==> !body[i].MarkFailed? && !body[i].SetSucceed?
  }

  /** A body that neither calls `markAsFailed()` nor assigns `tx.succeed`, and none of whose
      requests completes unsuccessfully, leaves every transaction's `succeed` flag as it
      found it. Put the other way round: a body run that changes a transaction's `succeed`
      called `markAsFailed()`, assigned `succeed`, or saw a request complete
      unsuccessfully. */
  lemma {:induction false} RunBodyKeepsSucceed(s: Session, h: nat, body: seq<BodyStep>)
    requires s.Valid() && h < |s.store|
    requires NoSucceedWrite(body)
    requires !UnsuccessfulIn(s.conn.script, s.conn.next, RunBody(s, h, body).session.conn.next)
    ensures forall i :: 0 <= i < |s.store| ==> RunBody(s, h, body).session.store[i].succeed == s.store[i].succeed
    decreases |body|
  {
    if |body| > 0 {
      var p := Perform(s, h, body[0]);
      if p.flow.Normal? {
        assert NoSucceedWrite(body[1..]);
        RunBodyKeepsSucceed(p.session, h, body[1..]);
      }
    }
  }

  /** No step calls `markAsFailed()` or assigns `tx.succeed = false`. */
  predicate NoFailure(body: seq<BodyStep>)
  {
    forall i :: 0 <= i < |body| ==> body[i] != MarkFailed && body[i] != SetSucceed(false)
  }

  /** A transaction that succeeds still succeeds after a body that neither calls
      `markAsFailed()` nor assigns `tx.succeed = false`, and none of whose requests
      completes unsuccessfully; assigning `tx.succeed = true` is allowed. */
  lemma {:induction false} RunBodyStaysSucceeded(s: Session, h: nat, body: seq<BodyStep>)
    requires s.Valid() && h < |s.store| && s.store[h].succeed
    requires NoFailure(body)
    requires !UnsuccessfulIn(s.conn.script, s.conn.next, RunBody(s, h, body).session.conn.next)
    ensures RunBody(s, h, body).session.store[h].succeed
    decreases |body|
  {
    if |body| > 0 {
      var p := Perform(s, h, body[0]);
      if p.flow.Normal? {
        assert NoFailure(body[1..]);
        RunBodyStaysSucceeded(p.session, h, body[1..]);
      }
    }
  }

  /** Running two bodies one after the other is running their concatenation: the second
      runs from where the first left off, and only if the first returned. */
  lemma {:induction false} RunBodyAppend(s: Session, h: nat, a: seq<BodyStep>, b: seq<BodyStep>)
    requires s.Valid() && h < |s.store|
    ensures var p := RunBody(s, h, a);
            RunBody(s, h, a + b) == if p.flow.Normal? then RunBody(p.session, h, b) else p
    decreases |a|
  {
    if |a| == 0 {
      assert a + b == b;
    } else {
      var ab := a + b;
      assert ab[0] == a[0] && ab[1..] == a[1..] + b;
      var p := Perform(s, h, a[0]);
      assert RunBody(s, h, ab) == if p.flow.Normal? then RunBody(p.session, h, ab[1..]) else p;
      assert RunBody(s, h, a) == if p.flow.Normal? then RunBody(p.session, h, a[1..]) else p;
      if p.flow.Normal? {
        RunBodyAppend(p.session, h, a[1..], b);
      }
    }
  }

  /** A body that throws or blocks at some step ends there: the steps after it never run. */
  lemma RunBodyStops(s: Session, h: nat, before: seq<BodyStep>, step: BodyStep, after: seq<BodyStep>)
    requires s.Valid() && h < |s.store|
    requires RunBody(s, h, before).flow.Normal?
    requires !Perform(RunBody(s, h, before).session, h, step).flow.Normal?
    ensures RunBody(s, h, before + [step] + after) == Perform(RunBody(s, h, before).session, h, step)
  {
    RunBodyAppend(s, h, before, [step] + after);
    assert before + [step] + after == before + ([step] + after);
  }

  /** Assigning `tx.succeed = true` revives a transaction, whatever its state before: a body
      that starts with that assignment leaves it succeeding if no later step fails it and
      no later request completes unsuccessfully. With `RunBodyAppend` this covers the
      assignment at any point of a body, for instance after `markAsFailed()`. */
  lemma RevivedStaysSucceeded(s: Session, h: nat, after: seq<BodyStep>)
    requires s.Valid() && h < |s.store|
    requires NoFailure(after)
    requires !UnsuccessfulIn(s.conn.script, s.conn.next, RunBody(s, h, [SetSucceed(true)] + after).session.conn.next)
    ensures RunBody(s, h, [SetSucceed(true)] + after).session.store[h].succeed
  {
    var rest := [SetSucceed(true)] + after;
    assert rest[0] == SetSucceed(true) && rest[1..] == after;
    var p := Perform(s, h, SetSucceed(true));
    assert RunBody(s, h, rest) == RunBody(p.session, h, after);
    RunBodyStaysSucceeded(p.session, h, after);
  }

  /** The request a step's query sends first, if the step is a query. */
  function QueryRun(step: BodyStep): Option<Request>
  {
    if step.Cypher? || step.CypherWithCallback? then Some(Run(step.query, step.params.GetOr(map[])))
    else None
  }

  /** Every request a body run sends is the RUN of one of the body's queries, or a PULL_ALL
      that a synchronous query sends after it. */
  lemma {:induction false} RunBodyRequests(s: Session, h: nat, body: seq<BodyStep>)
    requires s.Valid() && h < |s.store|
    ensures var log := RunBody(s, h, body).session.conn.log;
            forall k :: |s.conn.log| <= k < |log| ==>
              (log[k] == PullAll && exists i :: 0 <= i < |body| && body[i].Cypher?)
              || (exists i :: 0 <= i < |body| && QueryRun(body[i]) == Some(log[k]))
    decreases |body|
  {
    if |body| > 0 {
      var p := Perform(s, h, body[0]);
      var r := RunBody(s, h, body);
      var log := r.session.conn.log;
      assert p.session.conn.log <= log;
      if !p.flow.Normal? {
        assert r == p;
      }
      forall k | |s.conn.log| <= k < |log|
        ensures (log[k] == PullAll && exists i :: 0 <= i < |body| && body[i].Cypher?)
                || (exists i :: 0 <= i < |body| && QueryRun(body[i]) == Some(log[k]))
      {
        if k < |p.session.conn.log| {
          // one of the first step's own requests
          assert log[k] == p.session.conn.log[k];
          if log[k] == PullAll {
            assert body[0].Cypher?;
          } else {
            assert QueryRun(body[0]) == Some(log[k]);
          }
        } else if log[k] == PullAll && exists i :: 0 <= i < |body[1..]| && body[1..][i].Cypher? {
          var i :| 0 <= i < |body[1..]| && body[1..][i].Cypher?;
          assert body[i + 1].Cypher?;
        } else {
          // a request of the rest of the body
          assert r == RunBody(p.session, h, body[1..]);
          RunBodyRequests(p.session, h, body[1..]);
          assert forall k' :: |p.session.conn.log| <= k' < |log| ==>
                   (log[k'] == PullAll && exists i :: 0 <= i < |body[1..]| && body[1..][i].Cypher?)
                   || (exists i :: 0 <= i < |body[1..]| && QueryRun(body[1..][i]) == Some(log[k']));
          var i :| 0 <= i < |body[1..]| && QueryRun(body[1..][i]) == Some(log[k]);
          assert QueryRun(body[i + 1]) == Some(log[k]);
        }
      }
    }
  }

  /** The session after an accepted BEGIN has been drained: the state the body starts in. */
  function Drained(s: Session): (d: Session)
    requires s.Valid()
    ensures d.Valid() && d.current == Some(|s.store|) && |d.store| == |s.store| + 1
    ensures d.conn.log == s.conn.log + [Begin(), PullAll]
  {
    PullAndIgnore(BeginSent(s)).session
  }

  /** The requests the body of a transaction begun from `s` sends. */
  function BodyRequests(s: Session, body: seq<BodyStep>): (reqs: seq<Request>)
    requires s.Valid()
    ensures RunBody(Drained(s), |s.store|, body).session.conn.log == s.conn.log + [Begin(), PullAll] + reqs
  {
    var log := RunBody(Drained(s), |s.store|, body).session.conn.log;
    log[|s.conn.log| + 2..]
  }

  /** A synchronous query in a transaction body whose RUN or PULL_ALL completes
      unsuccessfully marks the transaction failed. */
  lemma FailedQueryMarksTransaction(s: Session, h: nat, query: string, params: Option<Params>)
    requires s.Valid() && s.current == Some(h) && h < |s.store|
    requires CypherFails(s.conn)
    ensures Perform(s, h, Cypher(query, params)).flow.Normal?
    ensures !Perform(s, h, Cypher(query, params)).session.store[h].succeed
  {
  }

  /** With autocommit on after the body, the close-out runs: COMMIT or ROLLBACK as the
      transaction's `succeed` says, then a draining PULL_ALL; once both complete, whether
      successfully or not, `currentTransaction` is cleared, the commit block is the no-op,
      and `succeed` is what it was when the body returned. */
  lemma ProceedCloses(s: Session, h: nat, body: seq<BodyStep>)
    requires s.Valid() && s.current == Some(h) && h < |s.store|
    requires s.store[h].commitBlock == Armed
    requires PullAndIgnore(s).flow.Normal?
    requires RunBody(PullAndIgnore(s).session, h, body).flow.Normal?
    ensures var b := RunBody(PullAndIgnore(s).session, h, body).session;
            var r := Proceed(s, h, body);
            b.store[h].autocommit && Completes(b.conn, 0) && Completes(b.conn, 1) ==>
              && r.flow.Normal?
              && r.session.current == None
              && r.session.conn.log == b.conn.log + [Close(b.store[h].succeed), PullAll]
              && r.session.store[h].succeed == b.store[h].succeed
              && r.session.store[h].commitBlock == NoOp
  {
  }

  /** With autocommit off after the body, nothing more is sent: no COMMIT, no ROLLBACK, and
      the call stays blocked, with the transaction still current and its block armed. */
  lemma ProceedWithoutAutocommit(s: Session, h: nat, body: seq<BodyStep>)
    requires s.Valid() && s.current == Some(h) && h < |s.store|
    requires s.store[h].commitBlock == Armed
    requires PullAndIgnore(s).flow.Normal?
    requires RunBody(PullAndIgnore(s).session, h, body).flow.Normal?
    requires !FinalAutocommit(body, s.store[h].autocommit)
    ensures var b := RunBody(PullAndIgnore(s).session, h, body).session;
            && Proceed(s, h, body) == Step(b, Blocked)
            && b.current == Some(h)
            && b.store[h].commitBlock == Armed
  {
    RunBodyAutocommit(PullAndIgnore(s).session, h, body);
  }

  /** The trace of a transaction that returns after a successful BEGIN: BEGIN, the draining
      PULL_ALL, the body's own requests, then COMMIT if the transaction still succeeds or
      ROLLBACK if not, and a last PULL_ALL. Afterwards no transaction is current, the
      commit block is the no-op, autocommit was on, and the transaction holds the
      connection's bookmark when there is one. */
  lemma TransactionTrace(s: Session, bookmark: Option<string>, body: seq<BodyStep>)
    requires s.Valid() && CompletesWith(s.conn, 0, true)
    ensures var r := ExecuteAsTransaction(s, bookmark, body);
            r.flow.Normal? ==>
            && r.session.current == None
            && r.session.conn.log ==
                 s.conn.log + [Begin(), PullAll] + BodyRequests(s, body)
                 + [Close(r.session.store[r.handle].succeed), PullAll]
            && r.session.conn.next == RunBody(Drained(s), |s.store|, body).session.conn.next + 2
            && r.session.store[r.handle].succeed == RunBody(Drained(s), |s.store|, body).session.store[r.handle].succeed
            && r.session.store[r.handle].commitBlock == NoOp
            && r.session.store[r.handle].autocommit
            && (GetBookmark(r.session).Some? ==> r.session.store[r.handle].bookmark == GetBookmark(r.session))
  {
    var h := |s.store|;
    var b := RunBody(Drained(s), h, body);
    if ExecuteAsTransaction(s, bookmark, body).flow.Normal? {
      assert ExecuteAsTransaction(s, bookmark, body).session == Finish(b.session, h).session;
    }
  }

  /** A body that fails its transaction at step `i`, by `markAsFailed()` or by assigning
      `tx.succeed = false`, and does not set `succeed` back to true afterwards makes a
      returning transaction end in ROLLBACK. */
  lemma RollbackAfterMarkAsFailed(s: Session, bookmark: Option<string>, body: seq<BodyStep>, i: nat)
    requires s.Valid() && CompletesWith(s.conn, 0, true)
    requires FailsFrom(body, i)
    ensures var r := ExecuteAsTransaction(s, bookmark, body);
            r.flow.Normal? ==>
              && |r.session.conn.log| >= 2
              && r.session.conn.log[|r.session.conn.log| - 2] == Rollback()
              && r.session.conn.log[|r.session.conn.log| - 1] == PullAll
  {
    if ExecuteAsTransaction(s, bookmark, body).flow.Normal? {
      TransactionTrace(s, bookmark, body);
      RunBodyMarksFailed(Drained(s), |s.store|, body, i);
    }
  }

  /** A body that neither calls `markAsFailed()` nor assigns `tx.succeed = false`, and none
      of whose requests completes unsuccessfully, makes a returning transaction end in
      COMMIT. The body's requests receive the outcomes from the drained BEGIN on. */
  lemma CommitWithoutFailure(s: Session, bookmark: Option<string>, body: seq<BodyStep>)
    requires s.Valid() && CompletesWith(s.conn, 0, true)
    requires NoFailure(body)
    requires !UnsuccessfulIn(s.conn.script, Drained(s).conn.next,
                             RunBody(Drained(s), |s.store|, body).session.conn.next)
    ensures var r := ExecuteAsTransaction(s, bookmark, body);
            r.flow.Normal? ==>
              && |r.session.conn.log| >= 2
              && r.session.conn.log[|r.session.conn.log| - 2] == Commit()
              && r.session.conn.log[|r.session.conn.log| - 1] == PullAll
  {
    if ExecuteAsTransaction(s, bookmark, body).flow.Normal? {
      TransactionTrace(s, bookmark, body);
      RunBodyStaysSucceeded(Drained(s), |s.store|, body);
    }
  }

  /** A body that throws, or blocks, after an accepted and drained BEGIN ends the whole call
      the same way: its error propagates out of `executeAsTransaction`, no COMMIT or
      ROLLBACK is sent, and the transaction stays current with its commit block armed. */
  lemma BodyFaultPropagates(s: Session, bookmark: Option<string>, body: seq<BodyStep>)
    requires s.Valid() && CompletesWith(s.conn, 0, true) && Completes(s.conn, 1)
    requires !RunBody(Drained(s), |s.store|, body).flow.Normal?
    ensures var r := ExecuteAsTransaction(s, bookmark, body);
            && r.flow == RunBody(Drained(s), |s.store|, body).flow
            && r.session.conn.log == s.conn.log + [Begin(), PullAll] + BodyRequests(s, body)
            && r.session.current == Some(r.handle)
            && r.session.store[r.handle].commitBlock == Armed
  {
    var h := |s.store|;
    SendLockstep(s.conn, Begin());
    assert Completes(BeginSent(s).conn, 0);
    assert ExecuteAsTransaction(s, bookmark, body).session == RunBody(Drained(s), h, body).session;
  }

  /** After `executeAsTransaction` returns, its transaction's commit block is the no-op:
      invoking it again issues no request and changes nothing. */
  lemma CommitBlockFiresOnce(s: Session, bookmark: Option<string>, body: seq<BodyStep>, succeed: bool)
    requires s.Valid()
    requires ExecuteAsTransaction(s, bookmark, body).flow.Normal?
    ensures var r := ExecuteAsTransaction(s, bookmark, body);
            InvokeCommitBlock(r.session, r.handle, succeed) == Step(r.session, Normal)
  {
  }

  /** The `bookmark` argument of `executeAsTransaction` has no effect. */
  lemma BookmarkArgumentUnused(s: Session, b1: Option<string>, b2: Option<string>, body: seq<BodyStep>)
    requires s.Valid()
    ensures ExecuteAsTransaction(s, b1, body) == ExecuteAsTransaction(s, b2, body)
  {
  }
}

=== FILE: protocol.dfy ===
/** The Bolt connection seen from the client: requests as an abstract datatype, responses
    as opaque values, and the connection itself as a scripted sequential oracle that
    answers one request at a time, in issue order. */
module Protocol {
  import opened SwiftTypes

  /** A PackStream-encoded parameter value; the encoding is not modelled. */
  datatype Value = Packed(bytes: seq<bv8>)

  type Params = map<string, Value>

  /** One response message of the server; its content is opaque to the client. */
  datatype Response = Response(packed: seq<bv8>)

  type Responses = seq<Response>

  /** Transaction control is sent as an ordinary RUN of a statement. */
  datatype Request = Run(statement: string, parameters: Params) | PullAll

  function Begin(): Request { Run("BEGIN", map[]) }

  function Commit(): Request { Run("COMMIT", map[]) }

  function Rollback(): Request { Run("ROLLBACK", map[]) }

  /** Errors the connection throws out of `request`. */
  datatype ConnError = ServerSyntaxError(message: string) | TransportError(description: string)

  /** What the connection does with one request: it completes it (calls back with the
      success flag and the responses, possibly after learning a new bookmark from the
      server), or it throws. */
  datatype Outcome =
    | Completed(success: bool, response: Responses, bookmark: Option<string>)
    | Thrown(error: ConnError)

  /** The connection state: the script of outcomes it delivers, in order, with `next` the
      index of the outcome the next request receives; the bookmark of the last acknowledged
      transaction; and every request handed to it so far. */
  datatype Conn = Conn(script: seq<Outcome>, next: nat, bookmark: Option<string>, log: seq<Request>)

  /** The outcome the `k`-th request from now receives, if the script reaches that far. */
  function Peek(c: Conn, k: nat): Option<Outcome>
  {
    if c.next + k < |c.script| then Some(c.script[c.next + k]) else None
  }

  /** The `k`-th request from now completes with the given success flag. */
  predicate CompletesWith(c: Conn, k: nat, success: bool)
  {
    Peek(c, k).Some? && Peek(c, k).value.Completed? && Peek(c, k).value.success == success
  }

  /** The `k`-th request from now completes, successfully or not. */
  predicate Completes(c: Conn, k: nat)
  {
    Peek(c, k).Some? && Peek(c, k).value.Completed?
  }

  /** The `k`-th request from now throws. */
  predicate Throws(c: Conn, k: nat)
  {
    Peek(c, k).Some? && Peek(c, k).value.Thrown?
  }

  /** A completion that reports failure. */
  predicate Unsuccessful(o: Outcome)
  {
    o.Completed? && !o.success
  }

  /** Some outcome of the script at an index in `[lo, hi)` is an unsuccessful completion. */
  predicate UnsuccessfulIn(script: seq<Outcome>, lo: int, hi: int)
  {
    exists k :: 0 <= lo <= k < hi && k < |script| && Unsuccessful(script[k])
  }

  /** The connection after a request, and the outcome delivered for it; `None` when the
      script is exhausted, i.e. the completion never fires. */
  datatype Exchange = Exchange(conn: Conn, reply: Option<Outcome>)

  /** Hands one request to the connection. A completion that carries a bookmark replaces
      the connection's bookmark; otherwise the bookmark is kept. */
  function Send(c: Conn, req: Request): Exchange
  {
    if c.next < |c.script| then
      var o := c.script[c.next];
      var bookmark := if o.Completed? && o.bookmark.Some? then o.bookmark else c.bookmark;
      Exchange(c.(next := c.next + 1, bookmark := bookmark, log := c.log + [req]), Some(o))
    else
      Exchange(c.(log := c.log + [req]), None)
  }

  /** The connection's bookmark after the outcomes at indices `[lo, hi)` of the script have
      been delivered, starting from `bookmark`: the bookmark of the latest completion that
      carried one, or `bookmark` if none did. */
  function BookmarkAfter(script: seq<Outcome>, lo: nat, hi: nat, bookmark: Option<string>): Option<string>
    decreases hi
  {
    if hi <= lo then bookmark
    else
      var before := BookmarkAfter(script, lo, hi - 1, bookmark);
      if hi - 1 < |script| && script[hi - 1].Completed? && script[hi - 1].bookmark.Some?
      then script[hi - 1].bookmark
      else before
  }

  /** Delivering a run of outcomes in two parts moves the bookmark as delivering it whole. */
  lemma {:induction false} BookmarkAfterSplit(script: seq<Outcome>, lo: nat, mid: nat, hi: nat, bookmark: Option<string>)
    requires lo <= mid <= hi
    ensures BookmarkAfter(script, lo, hi, bookmark) ==
            BookmarkAfter(script, mid, hi, BookmarkAfter(script, lo, mid, bookmark))
    decreases hi
  {
    if hi > mid {
      BookmarkAfterSplit(script, lo, mid, hi - 1, bookmark);
    }
  }

  /** `c2` is reached from `c1` by handing requests to the same scripted connection in
      order, the outcomes answering them in that same order, one outcome per request. A
      request is left unanswered only when the script has run out, and only if `pending`
      allows it; with `pending` false every request was answered. The bookmark is the one
      the delivered outcomes leave. */
  predicate Lockstep(c1: Conn, c2: Conn, pending: bool)
  {
    && c2.script == c1.script
    && c2.bookmark == BookmarkAfter(c1.script, c1.next, c2.next, c1.bookmark)
    && c1.log <= c2.log
    && c1.next <= c2.next
    && (c2.next == c1.next || c2.next <= |c2.script|)
    && c2.next - c1.next <= |c2.log| - |c1.log|
    && (c2.next - c1.next < |c2.log| - |c1.log| ==> pending && c2.next >= |c2.script|)
  }

  /** Sending one request keeps the connection in lockstep; the request stays unanswered
      exactly when no outcome was left for it, and otherwise receives the next one. */
  lemma SendLockstep(c: Conn, req: Request)
    ensures Lockstep(c, Send(c, req).conn, Send(c, req).reply.None?)
    ensures Send(c, req).reply == Peek(c, 0)
    ensures Send(c, req).conn.log == c.log + [req]
    ensures forall k: nat :: Peek(Send(c, req).conn, k) == (if Peek(c, 0).Some? then Peek(c, k + 1) else None)
  {
  }

  lemma LockstepRefl(c: Conn, pending: bool)
    ensures Lockstep(c, c, pending)
  {
  }

  /** Lockstep runs compose; the composite leaves a request unanswered only if one part
      may. */
  lemma LockstepTrans(c1: Conn, c2: Conn, c3: Conn, p1: bool, p2: bool)
    requires Lockstep(c1, c2, p1)
    requires Lockstep(c2, c3, p2)
    ensures Lockstep(c1, c3, p1 || p2)
  {
    BookmarkAfterSplit(c1.script, c1.next, c2.next, c3.next, c1.bookmark);
  }

  /** Once the connection answers a later request, no earlier one was left unanswered:
      an unanswered request means the script had already run out. */
  lemma LockstepAnswered(c1: Conn, c2: Conn, c3: Conn, p1: bool)
    requires Lockstep(c1, c2, p1)
    requires Lockstep(c2, c3, false)
    requires c2.next < c3.next
    ensures Lockstep(c1, c3, false)
  {
    BookmarkAfterSplit(c1.script, c1.next, c2.next, c3.next, c1.bookmark);
  }
}

=== FILE: swift_types.dfy ===
/** Swift's optional and the `Result` type of the Result package, as the client uses them. */
module SwiftTypes {

  datatype Option<+T> = None | Some(value: T) {

    /** The wrapped value, or `default` for `None` (Swift's `??`). */
    function GetOr(default: T): T {
      match this
      case Some(v) => v
      case None => default
    }
  }

  datatype Result<+R, +E> = Success(value: R) | Failure(error: E)
}

=== FILE: transaction.dfy ===
/** The `Transaction` record handed to a transaction body. */
module Transactions {
  import opened SwiftTypes

  /** The one-shot commit action. `NoOp` is the closure `{ _ in }` a transaction starts
      with and is reset to once the action has fired; `Armed` is the COMMIT/ROLLBACK
      action installed by `executeAsTransaction`. */
  datatype CommitBlock = NoOp | Armed

  datatype Transaction = Transaction(
    succeed: bool,
    bookmark: Option<string>,
    autocommit: bool,
    commitBlock: CommitBlock)

  /** `Transaction()`: every field at its declared default. */
  function Fresh(): (t: Transaction)
    ensures t.succeed && t.autocommit
    ensures t.bookmark == None
    ensures t.commitBlock == NoOp
  {
    Transaction(true, None, true, NoOp)
  }

  /** `markAsFailed()`: the transaction is failed afterwards and nothing else changes. */
  function MarkAsFailed(t: Transaction): (r: Transaction)
    ensures !r.succeed
    ensures r.bookmark == t.bookmark && r.autocommit == t.autocommit
    ensures r.commitBlock == t.commitBlock
  {
    t.(succeed := false)
  }

  /** A failed transaction stays failed: `succeed` only ever moves from true to false. */
  predicate FailureKept(t: Transaction, t': Transaction)
  {
    !t.succeed ==> !t'.succeed
  }

  /** Marking a transaction failed twice is the same as marking it once, and it never
      sets `succeed` back to true. */
  lemma MarkAsFailedIdempotent(t: Transaction)
    ensures MarkAsFailed(MarkAsFailed(t)) == MarkAsFailed(t)
    ensures FailureKept(t, MarkAsFailed(t))
    ensures t.succeed ==> MarkAsFailed(t) == t.(succeed := false)
    ensures !t.succeed ==> MarkAsFailed(t) == t
  {
  }
}
